=== FILE: README.md ===
# OIDURLQueryComponent — a verified model of AppAuth's URL query codec

`OIDURLQueryComponent` is the helper AppAuth-iOS uses to parse the query of an OAuth redirect URL and to
build the query of an authorization request. It keeps the query's parameters as
name/value pairs in insertion order, and keeps duplicate names. It offers:

- reading: `parameters`, `dictionaryValue`, `valuesForParameter:`;
- adding: `addParameter:value:`, `addParameters:`;
- two ways out: `URLEncodedParameters`, which writes the
  `application/x-www-form-urlencoded` text, and `URLByReplacingQueryInURL:`, which splices that text into a URL
  as its query;
- one way in: `initWithURL:`, which may fail.

The class's interface and its doc comments are the source of every contract here. The implementation file
is not part of this model. The model is therefore a reference implementation of that interface. Each
behaviour the interface leaves open is fixed below as a modelling decision. None of them is a claim about
`OIDURLQueryComponent.m`.

## Layout

| file | module | contents |
|---|---|---|
| `wrappers.dfy` | `Wrappers` | `Option`, standing for the `nullable` result of `initWithURL:` |
| `percent.dfy` | `PercentCoding` | octets, the unreserved set, percent-encoding and its decoding, the `WellEncoded` characterisation of decodable text |
| `tokens.dfy` | `Tokens` | splitting at every separator and joining, splitting at the first separator |
| `url.dfy` | `Urls` | a URL as prefix, optional query and optional fragment, read from and written to text |
| `query.dfy` | `Query` | the component itself: its entries, the readers, the adders, serialising, parsing and splicing, and the laws that connect them |
| `scenarios.dfy` | `Scenarios` | worked examples: a redirect URL read back, a request value encoded, case-sensitive names, the empty splice |

## Modelling decisions

- **Entries.** A component is `QueryComponent(entries: seq<Entry>)` with `Entry(name, value)`, in insertion order.
  Duplicates are kept. Adding appends and never merges.
- **Text as octets.** Names and values are octet strings (`seq<byte>`), standing for the UTF-8 form of the
  `NSString`. Names are compared octet for octet, which makes lookup case-sensitive as the interface
  requires. The query text of a URL is a `string`.
- **`dictionaryValue`.** Its values are `Single(v)` for a name with one value and `Multiple(vs)` for a name
  with several. This replaces the `NSString`-or-`NSArray` object.
- **`addParameters:`.** It takes an ordered sequence of pairs rather than an `NSDictionary`, so the order of
  the added entries is defined. It is `addParameter:value:` applied to each pair in turn.
- **Encoding.** Every octet outside the unreserved set of section 2.3 of RFC 3986 (`A-Z a-z 0-9 - . _ ~`) is
  written `%HH`, with upper-case hex digits, as in section 2.1 of RFC 3986. A space is written `%20`, never `+`.
  Tokens are `name=value`, joined by `&` in entry order.
- **Decoding.** `+` reads as a space, and `%HH` reads as the octet, with hex digits of either case. Any other
  character below 128 reads as its own code. A character of 128 or above, or a `%` that is not followed by
  two hex digits, makes the whole parse fail. A malformed pair is never dropped on its own.
- **Tokens.** The query splits at every `&`, and empty tokens (from `&&` or a leading or trailing `&`) are
  skipped. Each token splits at its first `=`: the rest, further `=` included, is the value. A token
  without `=` is a name with the empty value.
- **URLs.** A URL is `Url(prefix, query, fragment)`. The prefix is scheme, authority and path. The query and
  the fragment are each present or absent. From text, the fragment starts at the first `#`, and the query
  starts at the first `?` before it, as in section 3.4 of RFC 3986.
- **Empty component.** The plain `init` is the constant `Query.Empty`, a component with no entries.
- **Worked examples.** `Scenarios.Ascii` turns ASCII text into its octets. It is only applied to ASCII text, so no
  character needs truncating.
- **Failure.** `initWithURL:` yields `None` when the URL has no query at all, or when the query is not
  decodable. An empty query (`...?`) gives an empty component.
- **Empty splice.** Splicing a component with no entries leaves the URL without a query. It does not leave
  an empty one. Reading that URL back therefore yields `None`, so the splice round trip is stated for
  non-empty components.

## Model

| member | source | states |
|---|---|---|
| Query.Parameters | Source/OIDURLQueryComponent.h:30-33 | the parameter names are pairwise distinct, and a name is listed exactly when `valuesForParameter:` gives it at least one value |
| Query.NamesPrefix | Source/OIDURLQueryComponent.h:30-33 | the names of any prefix of the entries are a prefix of the names of all of them, so names are listed in order of first occurrence |
| Query.DictionaryValue | Source/OIDURLQueryComponent.h:35-40 | the dictionary's keys are exactly the parameter names; each name maps to `Single(v)` when its values are `[v]`, and to `Multiple(vs)` when it has several values `vs`, in order |
| Query.AppendValue | Source/OIDURLQueryComponent.h:35-40 | one more value for a described name turns a single value into a list, or extends a list, and the result describes the values with the new one last |
| Query.InitWithUrl | Source/OIDURLQueryComponent.h:42-46 | a URL without a query yields no component; a URL with a query yields one exactly when that query is well encoded, and then it is the query's parse, whose entries `ParseQueryConcat` and `ParseQueryOneToken` (token by token, bare names included) and the decoding lemmas `DecodeConcat`, `DecodeLiteral`, `DecodeEscape` and `DecodePlus` determine |
| Query.ParseQuery | Source/OIDURLQueryComponent.h:42-46 | a query text parses exactly when every `%` in it starts an escape of two hex digits and every character is ASCII |
| Query.ParseQueryConcat | Source/OIDURLQueryComponent.h:42-46 | `x&y` parses to the entries of `x` followed by those of `y`, and fails exactly when either part fails |
| Query.ParseQueryOneToken | Source/OIDURLQueryComponent.h:42-46 | a query of one non-empty token without `&` gives exactly that token's entry (a bare name gives the name with the empty value), or fails when the token does not decode |
| Query.DecodeTokensConcat | Source/OIDURLQueryComponent.h:42-46 | a list of tokens decodes part by part: the entries of the first part, then those of the second, and failure when either part fails |
| Query.ParseQueryOfPairs | Source/OIDURLQueryComponent.h:42-46 | a query `n1=v1&...&nk=vk` (no `=` in a name, no `&` anywhere) parses exactly when every name and value decodes, and then gives k entries, the i-th being the decoded `ni` with the decoded `vi`, in order |
| Query.DecodeTokensOfPairs | Source/OIDURLQueryComponent.h:42-46 | a list of `n=v` tokens (no `=` in a name) decodes exactly when every name and value does, into the decoded pairs in order |
| Query.DecodeToken | Source/OIDURLQueryComponent.h:42-46 | a token without `=` is a name with the empty value, and decodes exactly when that name does |
| Query.ParseSkipsDoubleSeparator | Source/OIDURLQueryComponent.h:42-46 | `x&&y` parses like `x&y`: an empty token between two `&` adds no entry |
| Query.ParseSkipsLeadingSeparator | Source/OIDURLQueryComponent.h:42-46 | `&y` parses like `y` |
| Query.ParseSkipsTrailingSeparator | Source/OIDURLQueryComponent.h:42-46 | `x&` parses like `x` |
| PercentCoding.DecodePlus | Source/OIDURLQueryComponent.h:42-46 | in any context, `+` decodes exactly as `%20` does, and `+` alone decodes to the one octet 0x20 |
| PercentCoding.DecodeHexCase | Source/OIDURLQueryComponent.h:42-46 | in any context, an escape decodes the same with lower-case hex digits as with their upper-case forms |
| PercentCoding.DecodeInContext | Source/OIDURLQueryComponent.h:42-46 | two pieces that start with no hex digit and decode alike before the same text also decode alike after any common text |
| PercentCoding.Decode | Source/OIDURLQueryComponent.h:42-46 | decoding never yields more octets than characters; with its partners `DecodeSucceedsIff`, `DecodeConcat`, `DecodeLiteral`, `DecodeEscape`, `DecodePlus`, `DecodeHexCase` and `DecodeEncode` it accepts exactly well-encoded text, decodes piece by piece, reads each literal ASCII character as its code, `%HH` as octet HH and `+` as space, and inverts encoding |
| PercentCoding.DecodeConcat | Source/OIDURLQueryComponent.h:42-46 | a decodable text followed by any text decodes to the two decodings joined, and fails exactly when the second part fails |
| PercentCoding.DecodeLiteral | Source/OIDURLQueryComponent.h:42-46 | a single ASCII character other than `%` and `+` (reserved ones such as `/`, `:`, `=` included) decodes to the one octet of its code |
| PercentCoding.DecodeEscape | Source/OIDURLQueryComponent.h:42-46 | an escape `%HH`, with hex digits of either case, decodes to the one octet `16 * H + H`, whether or not that octet is unreserved |
| Query.DecodeTokenSucceedsIff | Source/OIDURLQueryComponent.h:42-46 | one `name=value` token decodes exactly when it is well encoded |
| Query.DecodeTokensSucceedsIff | Source/OIDURLQueryComponent.h:42-46 | a list of tokens decodes exactly when each of them is well encoded, so one bad token fails them all |
| Query.ValuesForParameter | Source/OIDURLQueryComponent.h:48-53 | there are never more values than entries; with its partner `ValuesForParameterPositions` the values are exactly those of the entries with that name, in entry order |
| Query.ValuesForParameterPositions | Source/OIDURLQueryComponent.h:48-53 | the values for a name are the values of exactly the entries with that name, octet for octet (so case-sensitively), in entry order; an absent name gives none |
| Query.AddParameter | Source/OIDURLQueryComponent.h:55-60 | the entries grow by exactly one: every old entry stays in place and the new `(name, value)` entry comes last |
| Query.AddParameterLaws | Source/OIDURLQueryComponent.h:55-60 | adding keeps every existing entry in place and adds one; the name's values gain the new value at the end; every other name's values are unchanged; a new name becomes the last parameter |
| Query.AddParameters | Source/OIDURLQueryComponent.h:62-66 | adding pairs extends the entries by exactly those pairs, in the order given |
| Query.AddParametersValues | Source/OIDURLQueryComponent.h:62-66 | after a bulk add each name has its old values followed by the values added under it, in order |
| Query.UrlEncodedParameters | Source/OIDURLQueryComponent.h:74-78 | the form text is empty exactly when there are no entries, and consists only of unreserved characters, `%`, `=` and `&` |
| Query.ParseEncodeRoundTrip | Source/OIDURLQueryComponent.h:74-78 | parsing the form text gives back the same entries in the same order, for any names and values, `&`, `=`, `+`, `%` and space included |
| Query.UrlByReplacingQuery | Source/OIDURLQueryComponent.h:68-72 | the spliced URL keeps the prefix and fragment; its query is the form text, and there is no query when there are no entries; a well-formed URL stays well-formed |
| Query.SpliceRoundTrip | Source/OIDURLQueryComponent.h:68-72 | reading a spliced URL gives back the component when it has entries, and nothing when it has none |
| Query.UrlTextRoundTrip | Source/OIDURLQueryComponent.h:68-72 | for a non-empty component, writing the spliced URL out as text and reading it back gives the component back |
| PercentCoding.DecodeEncode | Source/OIDURLQueryComponent.h:74-78 | decoding the percent-encoding of any octet string gives that string back |
| PercentCoding.DecodeSucceedsIff | Source/OIDURLQueryComponent.h:42-46 | decoding succeeds exactly on well-encoded text: ASCII only, and every `%` followed by two hex digits |
| PercentCoding.EncodeUnreserved | Source/OIDURLQueryComponent.h:74-78 | octets of the unreserved set are written unchanged |
| PercentCoding.EncodeConcat | Source/OIDURLQueryComponent.h:74-78 | the encoding of joined octet strings is the join of their encodings |
| PercentCoding.EncodeWellEncoded | Source/OIDURLQueryComponent.h:74-78 | whatever encoding writes is well encoded, so it can always be read back |
| PercentCoding.Encode | Source/OIDURLQueryComponent.h:74-78 | an encoding is at least as long as its input and at most three times as long, and uses only unreserved characters and `%`; with `EncodeUpperEscapes` and `DecodeEncode`, each other octet is written `%` and two upper-case hex digits |
| PercentCoding.HexDigit | Source/OIDURLQueryComponent.h:74-78 | the digit for a value below 16 is a hex digit in `0-9` or `A-F`, unreserved, and reads back as that value |
| PercentCoding.EncodeUpperEscapes | Source/OIDURLQueryComponent.h:74-78 | every `%` the encoder writes is followed by two hex digits, neither of them in `a-f` |
| Tokens.SplitAtFirst | Source/OIDURLQueryComponent.h:42-46 | the name part holds no `=`; with an `=`, the token is the name, `=`, and the value; without one, the value is empty |
| Tokens.SplitAtFirstUnique | Source/OIDURLQueryComponent.h:42-46 | a token built as name, `=` and value, with no `=` in the name, splits back into that name and value |
| Urls.FromString | Source/OIDURLQueryComponent.h:42-46 | the URL read from a text is well formed and writes back to that text |
| Urls.FromStringToString | Source/OIDURLQueryComponent.h:68-72 | a well-formed URL written out and read back is the same URL |
| Scenarios.ReadTwoNames | Source/OIDURLQueryComponent.h:42-53 | a redirect URL `...?n1=v1&n2=v2` with two different names (as in `...?code=C&state=S`) reads back with parameters `n1` then `n2`, each with its one value |
| Scenarios.ReadRepeatedName | Source/OIDURLQueryComponent.h:35-53 | `...?n=X&n=Y` reads back with both values of `n`, in order, and the dictionary gives `n` the list of both |
| Scenarios.ParseWithoutQuery | Source/OIDURLQueryComponent.h:42-46 | `https://x.example/cb`, which has no `?`, yields no component |
| Scenarios.EncodeRedirectUri | Source/OIDURLQueryComponent.h:74-78 | a value `https://host/path` added to an empty component is written `name=https%3A%2F%2Fhost%2Fpath` |
| Scenarios.EncodeSpace | Source/OIDURLQueryComponent.h:74-78 | a space inside a value is written `%20` |
| Scenarios.CaseSensitiveNames | Source/OIDURLQueryComponent.h:48-60 | values added under `Foo` and under `foo` are kept apart |
| Scenarios.SpliceEmpty | Source/OIDURLQueryComponent.h:68-72 | an empty component spliced into `https://x.example/cb?old=1` gives `https://x.example/cb` |
| Scenarios.TwoNames | Source/OIDURLQueryComponent.h:30-60 | two additions under different names give both names, in order, with one value each |
| Scenarios.RepeatedName | Source/OIDURLQueryComponent.h:35-60 | two additions under one name give that name both values, and the dictionary a list of them |

## Left out

- AppAuthSwiftTests/AppAuthSwiftTests.swift: an asynchronous test that sends a real token request over the
  network. It exercises I/O and other classes, not this component.
- Full `NSURL` behaviour: scheme, host and port parsing, normalisation and resolution. A URL is only prefix,
  optional query and optional fragment.
- `NSDictionary` iteration order in `addParameters:`: Foundation leaves it unspecified, so the pairs come as
  an ordered sequence.
- UTF-8 validation of decoded octets, and the bridging of octets to `NSString`. Names and values stay
  octet strings, so text whose decoded octets are not valid UTF-8 is accepted here.
- Thread safety. The class is a mutable, non-atomic `NSObject` with no locking; the model is an immutable
  value, and each adder returns a new component.
- `NSCopying` and object identity: a component is a value here.
- Query.SpliceRoundTrip: the round trip through `URLByReplacingQueryInURL:` and `initWithURL:` is stated
  only for components with entries, because an empty component is spliced as no query at all, and
  reading a URL without a query yields no component.
- Scenarios.EncodeRedirectUri, Scenarios.EncodeSpace, Scenarios.ReadTwoNames, Scenarios.ReadRepeatedName:
  these are stated for any plain host, path, name or value (letters, digits, `-`, `.`, `_`, `~`) rather than
  for one literal such as `a.example`.

=== FILE: percent.dfy ===
/**
 Percent-encoding of names and values (section 2.1 of RFC 3986) with the
 `application/x-www-form-urlencoded` decoding rule that reads `+` as a space.

 Names and values are carried as octet strings: the UTF-8 form of the
 Objective-C strings. The query text itself is a string of characters.
 */
module PercentCoding {
  import opened Wrappers

  /** One octet of the UTF-8 form of a name or value. */
  type byte = b: int | 0 <= b < 256

  /** A name or a value: the UTF-8 octets of an NSString. */
  type Bytes = seq<byte>

  /** The unreserved characters of section 2.3 of RFC 3986 (`A-Z a-z 0-9 - . _ ~`). */
  predicate IsUnreservedChar(c: char) {
    || 'A' <= c <= 'Z'
    || 'a' <= c <= 'z'
    || '0' <= c <= '9'
    || c == '-' || c == '.' || c == '_' || c == '~'
  }

  /** An octet whose character is unreserved, and so is written as itself. */
  predicate IsUnreserved(b: byte) {
    IsUnreservedChar(b as char)
  }

  predicate IsHexDigit(c: char) {
    '0' <= c <= '9' || 'A' <= c <= 'F' || 'a' <= c <= 'f'
  }

  /** The characters the encoder ever writes: unreserved ones and `%`. */
  predicate IsEncodedChar(c: char) {
    IsUnreservedChar(c) || c == '%'
  }

  /** The value of a hexadecimal digit, either case. */
  function HexValue(c: char): (n: int)
    requires IsHexDigit(c)
    ensures 0 <= n < 16
  {
    if '0' <= c <= '9' then c as int - '0' as int
    else if 'A' <= c <= 'F' then c as int - 'A' as int + 10
    else c as int - 'a' as int + 10
  }

  /** The upper-case hexadecimal digit for `n`; `HexValue` reads it back. */
  function HexDigit(n: int): (c: char)
    requires 0 <= n < 16
    ensures IsHexDigit(c) && IsUnreservedChar(c)
    ensures !('a' <= c <= 'f')
    ensures HexValue(c) == n
  {
    if n < 10 then ('0' as int + n) as char else ('A' as int + n - 10) as char
  }

  /** One octet as it appears in the serialised query. */
  function EncodeOctet(b: byte): (s: string)
    ensures 1 <= |s| <= 3
    ensures forall i :: 0 <= i < |s| ==> IsEncodedChar(s[i])
  {
    if IsUnreserved(b) then [b as char]
    else ['%', HexDigit(b / 16), HexDigit(b % 16)]
  }

  /** Percent-encoding of a whole name or value. */
  function Encode(bs: Bytes): (s: string)
    ensures |bs| <= |s| <= 3 * |bs|
    ensures forall i :: 0 <= i < |s| ==> IsEncodedChar(s[i])
    decreases |bs|
  {
    if bs == [] then [] else EncodeOctet(bs[0]) + Encode(bs[1..])
  }

  function Prepend(b: byte, r: Option<Bytes>): Option<Bytes> {
    match r
    case None => None
    case Some(t) => Some([b] + t)
  }

  /**
   Form decoding of a name or value: `+` is a space, `%HH` is the octet HH,
   any other ASCII character is its own octet. A `%` not followed by two hex
   digits, or a character outside ASCII, makes the decoding fail.
   */
  function Decode(s: string): (r: Option<Bytes>)
    ensures r.Some? ==> |r.value| <= |s|
    decreases |s|
  {
    if s == [] then Some([])
    else if s[0] == '%' then
      if 3 <= |s| && IsHexDigit(s[1]) && IsHexDigit(s[2]) then
        Prepend(16 * HexValue(s[1]) + HexValue(s[2]), Decode(s[3..]))
      else None
    else if s[0] == '+' then Prepend(' ' as int, Decode(s[1..]))
    else if s[0] as int < 128 then Prepend(s[0] as int, Decode(s[1..]))
    else None
  }

  /**
   The texts `Decode` accepts, stated without recursion: every character is
   ASCII and every `%` is followed by two hexadecimal digits.
   */
  ghost predicate WellEncoded(s: string) {
    AllAscii(s) && EscapesComplete(s)
  }

  /** Dropping a leading ASCII character other than `%` keeps well-formedness either way. */
  lemma WellEncodedDropOne(s: string)
    requires s != [] && s[0] as int < 128 && s[0] != '%'
    ensures WellEncoded(s) <==> WellEncoded(s[1..])
  {
    if WellEncoded(s[1..]) {
      forall i | 0 <= i < |s| && s[i] == '%'
        ensures i + 2 < |s| && IsHexDigit(s[i + 1]) && IsHexDigit(s[i + 2])
      {
        assert s[1..][i - 1] == s[i];
      }
    }
  }

  /** Dropping a leading well-formed escape keeps well-formedness either way. */
  lemma WellEncodedDropEscape(s: string)
    requires 3 <= |s| && s[0] == '%' && IsHexDigit(s[1]) && IsHexDigit(s[2])
    ensures WellEncoded(s) <==> WellEncoded(s[3..])
  {
    if WellEncoded(s[3..]) {
      forall i | 0 <= i < |s| && s[i] == '%'
        ensures i + 2 < |s| && IsHexDigit(s[i + 1]) && IsHexDigit(s[i + 2])
      {
        if i >= 3 {
          assert s[3..][i - 3] == s[i];
        }
      }
      forall i | 0 <= i < |s|
        ensures s[i] as int < 128
      {
        if i >= 3 {
          assert s[3..][i - 3] == s[i];
        }
      }
    }
  }

  /** Decoding fails exactly on the texts that are not well formed. */
  lemma {:induction false} DecodeSucceedsIff(s: string)
    ensures Decode(s).Some? <==> WellEncoded(s)
    decreases |s|
  {
    if s == [] {
    } else if s[0] == '%' {
      if 3 <= |s| && IsHexDigit(s[1]) && IsHexDigit(s[2]) {
        DecodeSucceedsIff(s[3..]);
        WellEncodedDropEscape(s);
      }
    } else if s[0] as int < 128 {
      DecodeSucceedsIff(s[1..]);
      WellEncodedDropOne(s);
    }
  }

  /** Decoding the escape of one octet gives back the octet, whatever follows. */
  lemma DecodeEncodeOctet(b: byte, rest: string)
    ensures Decode(EncodeOctet(b) + rest) == Prepend(b, Decode(rest))
  {
    var s := EncodeOctet(b) + rest;
    if IsUnreserved(b) {
      assert s[1..] == rest;
    } else {
      assert s[3..] == rest;
      assert 16 * HexValue(s[1]) + HexValue(s[2]) == b;
    }
  }

  /** The upper-case form of a hexadecimal digit; it has the same value. */
  function UpperHex(c: char): (u: char)
    requires IsHexDigit(c)
    ensures IsHexDigit(u) && !('a' <= u <= 'f')
    ensures 'a' <= c <= 'f' ==> u as int == c as int - 32
    ensures HexValue(u) == HexValue(c)
  {
    if 'a' <= c <= 'f' then (c as int - 32) as char else c
  }

  /**
   Replacing one unit `s` of encoded text by another unit `t` that decodes the
   same way changes nothing, wherever the unit stands. Neither unit may start
   with a hex digit, so an unfinished escape just before it fails in both.
   */
  lemma {:induction false} DecodeInContext(a: string, s: string, t: string, b: string)
    requires s != [] && t != [] && !IsHexDigit(s[0]) && !IsHexDigit(t[0])
    requires Decode(s + b) == Decode(t + b)
    ensures Decode(a + s + b) == Decode(a + t + b)
    decreases |a|
  {
    if a == [] {
      assert a + s + b == s + b && a + t + b == t + b;
    } else if a[0] == '%' && 3 <= |a| {
      DecodeInContext(a[3..], s, t, b);
      EscapeInContext(a, s, t, b);
    } else if a[0] == '%' {
      UnfinishedEscape(a, s, b);
      UnfinishedEscape(a, t, b);
    } else {
      DecodeInContext(a[1..], s, t, b);
      FirstInContext(a, s, t, b);
    }
  }

  /** One step of `DecodeInContext` over a leading escape of `a`. */
  lemma EscapeInContext(a: string, s: string, t: string, b: string)
    requires 3 <= |a| && a[0] == '%'
    requires Decode(a[3..] + s + b) == Decode(a[3..] + t + b)
    ensures Decode(a + s + b) == Decode(a + t + b)
  {
    var x := a + s + b;
    var y := a + t + b;
    assert x[3..] == a[3..] + s + b && y[3..] == a[3..] + t + b;
    DecodeSameEscape(x, y);
  }

  /** One step of `DecodeInContext` over a leading character of `a` other than `%`. */
  lemma FirstInContext(a: string, s: string, t: string, b: string)
    requires a != [] && a[0] != '%'
    requires Decode(a[1..] + s + b) == Decode(a[1..] + t + b)
    ensures Decode(a + s + b) == Decode(a + t + b)
  {
    var x := a + s + b;
    var y := a + t + b;
    assert x[1..] == a[1..] + s + b && y[1..] == a[1..] + t + b;
    DecodeSameFirst(x, y);
  }

  /** Texts that start with the same character other than `%` decode alike when their rests do. */
  lemma DecodeSameFirst(x: string, y: string)
    requires x != [] && y != [] && x[0] == y[0] != '%'
    requires Decode(x[1..]) == Decode(y[1..])
    ensures Decode(x) == Decode(y)
  {
  }

  /** Texts that start with the same escape decode alike when their rests do. */
  lemma DecodeSameEscape(x: string, y: string)
    requires 3 <= |x| && 3 <= |y| && x[0] == y[0] == '%' && x[1] == y[1] && x[2] == y[2]
    requires Decode(x[3..]) == Decode(y[3..])
    ensures Decode(x) == Decode(y)
  {
  }

  /** A `%` with fewer than two characters left before a non-hex-digit fails to decode. */
  lemma UnfinishedEscape(a: string, s: string, b: string)
    requires a != [] && a[0] == '%' && |a| < 3
    requires s != [] && !IsHexDigit(s[0])
    ensures Decode(a + s + b) == None
  {
    var x := a + s + b;
    if |a| == 1 {
      assert x[1] == s[0];
    } else {
      assert x[2] == s[0];
    }
  }

  /** A literal character other than `%` and `+` decodes to its own code. */
  lemma DecodeLiteral(c: char)
    requires c as int < 128 && c != '%' && c != '+'
    ensures Decode([c]) == Some([c as int])
  {
    var one: Bytes := [c as int];
    DecodeFirstHead([c]);
    assert [c][1..] == [];
    assert [c as int as byte] + [] == one;
  }

  /** An escape `%HH`, with hex digits of either case, decodes to the octet HH. */
  lemma DecodeEscape(h1: char, h2: char)
    requires IsHexDigit(h1) && IsHexDigit(h2)
    ensures Decode(['%', h1, h2]) == Some([16 * HexValue(h1) + HexValue(h2)])
  {
    var one: Bytes := [16 * HexValue(h1) + HexValue(h2)];
    DecodeEscapeHead(['%', h1, h2]);
    assert ['%', h1, h2][3..] == [];
    assert [(16 * HexValue(h1) + HexValue(h2)) as byte] + [] == one;
  }

  /** Decoding a text that starts with a complete escape: the escape's octet, then the rest. */
  lemma DecodeEscapeHead(x: string)
    requires 3 <= |x| && x[0] == '%' && IsHexDigit(x[1]) && IsHexDigit(x[2])
    ensures Decode(x) == Prepend(16 * HexValue(x[1]) + HexValue(x[2]), Decode(x[3..]))
  {
  }

  /** Decoding a text that starts with an ASCII character other than `%`: its octet, then the rest. */
  lemma DecodeFirstHead(x: string)
    requires x != [] && x[0] != '%' && x[0] as int < 128
    ensures Decode(x) == Prepend(if x[0] == '+' then ' ' as int else x[0] as int, Decode(x[1..]))
  {
  }

  /**
   Decoding works piece by piece: a decodable text followed by another
   decodes to the two decodings joined, or fails exactly when the second fails.
   */
  lemma {:induction false} DecodeConcat(a: string, b: string)
    requires Decode(a).Some?
    ensures Decode(a + b) == if Decode(b).Some? then Some(Decode(a).value + Decode(b).value) else None
    decreases |a|
  {
    if a == [] {
      assert a + b == b;
      assert Decode(a) == Some([]);
      if Decode(b).Some? {
        assert [] + Decode(b).value == Decode(b).value;
      }
    } else if a[0] == '%' {
      assert 3 <= |a| && IsHexDigit(a[1]) && IsHexDigit(a[2]);
      var ab := a + b;
      assert ab[0] == '%' && ab[1] == a[1] && ab[2] == a[2];
      assert ab[3..] == a[3..] + b;
      DecodeEscapeHead(a);
      DecodeEscapeHead(ab);
      DecodeConcat(a[3..], b);
      PrependJoin(16 * HexValue(a[1]) + HexValue(a[2]), Decode(a[3..]).value, Decode(b));
    } else {
      assert a[0] as int < 128;
      var ab := a + b;
      assert ab[0] == a[0];
      assert ab[1..] == a[1..] + b;
      DecodeFirstHead(a);
      DecodeFirstHead(ab);
      DecodeConcat(a[1..], b);
      PrependJoin(if a[0] == '+' then ' ' as int else a[0] as int, Decode(a[1..]).value, Decode(b));
    }
  }

  /** Putting an octet in front commutes with appending a further decoding. */
  lemma PrependJoin(o: byte, x: Bytes, r: Option<Bytes>)
    ensures Prepend(o, if r.Some? then Some(x + r.value) else None)
         == if r.Some? then Some(Prepend(o, Some(x)).value + r.value) else None
  {
    if r.Some? {
      assert [o] + (x + r.value) == ([o] + x) + r.value;
    }
  }

  /** A `+` anywhere in a name or value decodes exactly as `%20`, a space. */
  lemma DecodePlus(a: string, b: string)
    ensures Decode(a + "+" + b) == Decode(a + "%20" + b)
    ensures Decode("+") == Some([0x20])
  {
    assert ("+" + b)[1..] == b;
    assert ("%20" + b)[3..] == b;
    var plus := "+";
    assert plus[0] == '+' && plus[1..] == [];
    assert Decode(plus[1..]) == Some([]);
    var space: Bytes := [0x20];
    assert Decode(plus) == Prepend(0x20, Some([]));
    assert [0x20 as byte] + [] == space;
    DecodeInContext(a, "+", "%20", b);
  }

  /** The case of the hex digits of an escape does not matter. */
  lemma DecodeHexCase(a: string, h1: char, h2: char, b: string)
    requires IsHexDigit(h1) && IsHexDigit(h2)
    ensures Decode(a + ['%', h1, h2] + b) == Decode(a + ['%', UpperHex(h1), UpperHex(h2)] + b)
  {
    var s := ['%', h1, h2];
    var t := ['%', UpperHex(h1), UpperHex(h2)];
    assert (s + b)[1] == h1 && (s + b)[2] == h2 && (s + b)[3..] == b;
    assert (t + b)[1] == UpperHex(h1) && (t + b)[2] == UpperHex(h2) && (t + b)[3..] == b;
    DecodeInContext(a, s, t, b);
  }

  /** Round trip: decoding the encoding of any octet string gives it back. */
  lemma {:induction false} DecodeEncode(bs: Bytes)
    ensures Decode(Encode(bs)) == Some(bs)
    decreases |bs|
  {
    if bs != [] {
      DecodeEncode(bs[1..]);
      DecodeEncodeOctet(bs[0], Encode(bs[1..]));
      assert [bs[0]] + bs[1..] == bs;
    }
  }

  /** Encoding distributes over concatenation. */
  lemma {:induction false} EncodeConcat(a: Bytes, b: Bytes)
    ensures Encode(a + b) == Encode(a) + Encode(b)
    decreases |a|
  {
    if a == [] {
      assert a + b == b;
    } else {
      assert (a + b)[0] == a[0];
      assert (a + b)[1..] == a[1..] + b;
      EncodeConcat(a[1..], b);
    }
  }

  /** Unreserved characters are written as themselves (section 2.3 of RFC 3986). */
  lemma {:induction false} EncodeUnreserved(bs: Bytes)
    requires forall i :: 0 <= i < |bs| ==> IsUnreserved(bs[i])
    ensures |Encode(bs)| == |bs|
    ensures forall i :: 0 <= i < |bs| ==> Encode(bs)[i] == bs[i] as char
    decreases |bs|
  {
    if bs != [] {
      EncodeUnreserved(bs[1..]);
      assert Encode(bs) == [bs[0] as char] + Encode(bs[1..]);
    }
  }

  /** The encoder's output is always well formed. */
  lemma {:induction false} EncodeWellEncoded(bs: Bytes)
    ensures WellEncoded(Encode(bs))
  {
    DecodeEncode(bs);
    DecodeSucceedsIff(Encode(bs));
  }

  /** A hexadecimal digit as the encoder writes it: a decimal digit or `A`-`F`. */
  predicate IsUpperHexDigit(c: char) {
    IsHexDigit(c) && !('a' <= c <= 'f')
  }

  /** Every `%` of `s` is followed by two upper-case hexadecimal digits. */
  ghost predicate UpperEscapes(s: string) {
    forall i :: 0 <= i < |s| && s[i] == '%' ==> i + 2 < |s| && IsUpperHexDigit(s[i + 1]) && IsUpperHexDigit(s[i + 2])
  }

  /** Joining two texts whose escapes are upper-case keeps them so. */
  lemma UpperEscapesJoined(a: string, b: string)
    requires UpperEscapes(a) && UpperEscapes(b)
    ensures UpperEscapes(a + b)
  {
  }

  /** One octet is written as itself or as `%` with two upper-case digits. */
  lemma EncodeOctetUpper(b: byte)
    ensures UpperEscapes(EncodeOctet(b))
  {
  }

  /**
   Every escape the encoder writes uses upper-case hexadecimal digits
   (section 2.1 of RFC 3986 recommends them).
   */
  lemma {:induction false} EncodeUpperEscapes(bs: Bytes)
    ensures UpperEscapes(Encode(bs))
    decreases |bs|
  {
    if bs != [] {
      EncodeOctetUpper(bs[0]);
      EncodeUpperEscapes(bs[1..]);
      UpperEscapesJoined(EncodeOctet(bs[0]), Encode(bs[1..]));
    }
  }

  /** Every character of `s` is ASCII. */
  predicate AllAscii(s: string) {
    forall i :: 0 <= i < |s| ==> s[i] as int < 128
  }

  /** Every `%` of `s` is followed by two hexadecimal digits. */
  ghost predicate EscapesComplete(s: string) {
    forall i :: 0 <= i < |s| && s[i] == '%' ==> i + 2 < |s| && IsHexDigit(s[i + 1]) && IsHexDigit(s[i + 2])
  }

  /** A text around an ASCII separator is ASCII exactly when both sides are. */
  lemma AsciiAround(a: string, c: char, b: string)
    requires c as int < 128
    ensures AllAscii(a + [c] + b) <==> AllAscii(a) && AllAscii(b)
  {
    var s := a + [c] + b;
    if AllAscii(s) {
      assert forall i :: 0 <= i < |a| ==> s[i] == a[i];
      assert forall i :: 0 <= i < |b| ==> s[|a| + 1 + i] == b[i];
    }
  }

  /** Complete escapes on both sides of a separator that is neither `%` nor a hex digit. */
  lemma EscapesInPieces(a: string, c: char, b: string)
    requires c != '%' && !IsHexDigit(c)
    requires EscapesComplete(a + [c] + b)
    ensures EscapesComplete(a) && EscapesComplete(b)
  {
    var s := a + [c] + b;
    forall i | 0 <= i < |a| && a[i] == '%'
      ensures i + 2 < |a| && IsHexDigit(a[i + 1]) && IsHexDigit(a[i + 2])
    {
      assert s[i] == a[i];
      assert s[|a|] == c;
      assert i + 2 < |a| by {
        assert IsHexDigit(s[i + 1]) && IsHexDigit(s[i + 2]);
      }
      assert s[i + 1] == a[i + 1] && s[i + 2] == a[i + 2];
    }
    forall i | 0 <= i < |b| && b[i] == '%'
      ensures i + 2 < |b| && IsHexDigit(b[i + 1]) && IsHexDigit(b[i + 2])
    {
      var j := |a| + 1 + i;
      assert s[j] == b[i];
      assert s[j + 1] == b[i + 1] && s[j + 2] == b[i + 2];
    }
  }

  /** Joining texts with complete escapes around a separator other than `%` keeps them complete. */
  lemma EscapesJoined(a: string, c: char, b: string)
    requires c != '%'
    requires EscapesComplete(a) && EscapesComplete(b)
    ensures EscapesComplete(a + [c] + b)
  {
    var s := a + [c] + b;
    forall i | 0 <= i < |s| && s[i] == '%'
      ensures i + 2 < |s| && IsHexDigit(s[i + 1]) && IsHexDigit(s[i + 2])
    {
      if i < |a| {
        assert s[i] == a[i];
        assert s[i + 1] == a[i + 1] && s[i + 2] == a[i + 2];
      } else {
        var k := i - |a| - 1;
        assert s[i] == b[k];
        assert s[i + 1] == b[k + 1] && s[i + 2] == b[k + 2];
      }
    }
  }

  /**
   A separator that is ASCII, not `%` and not a hex digit splits well-formed
   text into well-formed pieces, and joins well-formed pieces into
   well-formed text.
   */
  lemma WellEncodedAround(a: string, c: char, b: string)
    requires c as int < 128 && c != '%' && !IsHexDigit(c)
    ensures WellEncoded(a + [c] + b) <==> WellEncoded(a) && WellEncoded(b)
  {
    AsciiAround(a, c, b);
    if EscapesComplete(a + [c] + b) {
      EscapesInPieces(a, c, b);
    }
    if EscapesComplete(a) && EscapesComplete(b) {
      EscapesJoined(a, c, b);
    }
  }
}

=== FILE: query.dfy ===
/**
 The URL query component (`OIDURLQueryComponent`): an ordered list of
 name/value pairs that keeps duplicates, parsed from and serialised to the
 `application/x-www-form-urlencoded` form of a URL's query.
 */
module Query {
  import opened Wrappers
  import opened PercentCoding
  import opened Tokens
  import opened Urls

  /** One query parameter as it was parsed or added. */
  datatype Entry = Entry(name: Bytes, value: Bytes)

  /** The component: its entries in insertion order, duplicates kept. */
  datatype QueryComponent = QueryComponent(entries: seq<Entry>)

  /** A `dictionaryValue` value: the bare string, or the list when a name has several values. */
  datatype DictValue = Single(value: Bytes) | Multiple(values: seq<Bytes>)

  /** A component with no parameters yet. */
  const Empty: QueryComponent := QueryComponent([])

  // ----- reading -------------------------------------------------------------

  /** The values stored under `name` (compared octet for octet), in entry order. */
  function ValuesIn(es: seq<Entry>, name: Bytes): (vs: seq<Bytes>)
    ensures |vs| <= |es|
    decreases |es|
  {
    if es == [] then []
    else (if es[0].name == name then [es[0].value] else []) + ValuesIn(es[1..], name)
  }

  /** Looking up the values of a concatenation looks up each part in turn. */
  lemma {:induction false} ValuesInConcat(a: seq<Entry>, b: seq<Entry>, name: Bytes)
    ensures ValuesIn(a + b, name) == ValuesIn(a, name) + ValuesIn(b, name)
    decreases |a|
  {
    if a != [] {
      var head: seq<Bytes> := if a[0].name == name then [a[0].value] else [];
      assert (a + b)[0] == a[0];
      assert (a + b)[1..] == a[1..] + b;
      ValuesInConcat(a[1..], b, name);
      assert ValuesIn(a, name) == head + ValuesIn(a[1..], name);
      assert ValuesIn(a + b, name) == head + ValuesIn(a[1..] + b, name);
    } else {
      assert a + b == b;
    }
  }

  /** Appending one entry adds its value to its own name and to no other. */
  lemma ValuesInSnoc(es: seq<Entry>, e: Entry)
    ensures forall n :: ValuesIn(es + [e], n) == ValuesIn(es, n) + (if e.name == n then [e.value] else [])
  {
    forall n {
      ValuesInConcat(es, [e], n);
    }
  }

  /** `valuesForParameter:`: every value stored under `name`, in insertion order. */
  function ValuesForParameter(q: QueryComponent, name: Bytes): (vs: seq<Bytes>)
    ensures |vs| <= |q.entries|
  {
    ValuesIn(q.entries, name)
  }

  /**
   `idx` lists, increasing, the positions of all the entries named `name`,
   and `vs` holds their values in that order.
   */
  ghost predicate ArePositions(es: seq<Entry>, name: Bytes, idx: seq<nat>, vs: seq<Bytes>) {
    && |idx| == |vs|
    && (forall k :: 0 <= k < |idx| ==> idx[k] < |es| && es[idx[k]] == Entry(name, vs[k]))
    && Increasing(idx)
    && (forall i :: 0 <= i < |es| && es[i].name == name ==> i in idx)
  }

  ghost predicate Increasing(idx: seq<nat>) {
    forall k, l :: 0 <= k < l < |idx| ==> idx[k] < idx[l]
  }

  lemma ShiftIncreasing(tail: seq<nat>)
    requires Increasing(tail)
    ensures Increasing(Shift(tail))
    ensures Increasing([0] + Shift(tail))
  {
    var idx := [0] + Shift(tail);
    forall k, l | 0 <= k < l < |idx|
      ensures idx[k] < idx[l]
    {
      assert idx[l] == tail[l - 1] + 1;
      if k > 0 {
        assert idx[k] == tail[k - 1] + 1;
      }
    }
  }

  function Shift(idx: seq<nat>): (r: seq<nat>)
    ensures |r| == |idx|
    ensures forall k :: 0 <= k < |idx| ==> r[k] == idx[k] + 1
  {
    seq(|idx|, k requires 0 <= k < |idx| => idx[k] + 1)
  }

  lemma PositionsShifted(es: seq<Entry>, name: Bytes, tail: seq<nat>, vs: seq<Bytes>)
    requires es != [] && ArePositions(es[1..], name, tail, vs)
    ensures forall k :: 0 <= k < |tail| ==> Shift(tail)[k] < |es| && es[Shift(tail)[k]] == Entry(name, vs[k])
    ensures forall i :: 1 <= i < |es| && es[i].name == name ==> i in Shift(tail)
  {
    var shifted := Shift(tail);
    forall k | 0 <= k < |tail|
      ensures shifted[k] < |es| && es[shifted[k]] == Entry(name, vs[k])
    {
      assert es[shifted[k]] == es[1..][tail[k]];
    }
    forall i | 1 <= i < |es| && es[i].name == name
      ensures i in shifted
    {
      assert es[1..][i - 1] == es[i];
      var k :| 0 <= k < |tail| && tail[k] == i - 1;
      assert shifted[k] == i;
    }
  }

  lemma PositionsSkip(es: seq<Entry>, name: Bytes, tail: seq<nat>, vs: seq<Bytes>)
    requires es != [] && es[0].name != name && ArePositions(es[1..], name, tail, vs)
    ensures ArePositions(es, name, Shift(tail), vs)
  {
    PositionsShifted(es, name, tail, vs);
    ShiftIncreasing(tail);
  }

  lemma PositionsTake(es: seq<Entry>, name: Bytes, tail: seq<nat>, vs: seq<Bytes>)
    requires es != [] && es[0].name == name && ArePositions(es[1..], name, tail, vs)
    ensures ArePositions(es, name, [0] + Shift(tail), [es[0].value] + vs)
  {
    PositionsShifted(es, name, tail, vs);
    var idx := [0] + Shift(tail);
    var ws := [es[0].value] + vs;
    forall k | 0 <= k < |idx|
      ensures idx[k] < |es| && es[idx[k]] == Entry(name, ws[k])
    {
      if k > 0 {
        assert idx[k] == Shift(tail)[k - 1];
      }
    }
    ShiftIncreasing(tail);
  }

  /**
   The values of `name` are exactly the values of the entries named `name`,
   in entry order: `idx` lists those entries' positions and misses none.
   */
  lemma {:induction false} ValuesForParameterPositions(es: seq<Entry>, name: Bytes) returns (idx: seq<nat>)
    ensures ArePositions(es, name, idx, ValuesForParameter(QueryComponent(es), name))
    decreases |es|
  {
    if es == [] {
      idx := [];
    } else {
      var tail := ValuesForParameterPositions(es[1..], name);
      if es[0].name == name {
        PositionsTake(es, name, tail, ValuesIn(es[1..], name));
        idx := [0] + Shift(tail);
      } else {
        PositionsSkip(es, name, tail, ValuesIn(es[1..], name));
        idx := Shift(tail);
      }
    }
  }

  /** The distinct names of `es`, in order of first occurrence. */
  function Names(es: seq<Entry>): (ns: seq<Bytes>)
    ensures forall i, j :: 0 <= i < j < |ns| ==> ns[i] != ns[j]
    ensures forall n :: n in ns <==> ValuesIn(es, n) != []
    decreases |es|
  {
    if es == [] then []
    else
      var init := es[..|es| - 1];
      var last := es[|es| - 1];
      assert init + [last] == es;
      ValuesInSnoc(init, last);
      var ns := Names(init);
      if last.name in ns then ns else ns + [last.name]
  }

  /** `parameters`: each name that has a value, once, and no other name. */
  function Parameters(q: QueryComponent): (ns: seq<Bytes>)
    ensures forall i, j :: 0 <= i < j < |ns| ==> ns[i] != ns[j]
    ensures forall n :: n in ns <==> ValuesForParameter(q, n) != []
  {
    Names(q.entries)
  }

  /**
   First-occurrence order: the names of any prefix of the entries come first,
   in the same order, among the names of all of them.
   */
  lemma {:induction false} NamesPrefix(es: seq<Entry>, k: nat)
    requires k <= |es|
    ensures Names(es[..k]) <= Names(es)
    decreases |es|
  {
    if k < |es| {
      var init := es[..|es| - 1];
      assert es[..k] == init[..k];
      NamesPrefix(init, k);
    } else {
      assert es[..k] == es;
    }
  }

  /**
   `d` is the dictionary form of the values `vs` of one name: the bare value
   when there is exactly one, the whole ordered list when there are several.
   */
  predicate Describes(d: DictValue, vs: seq<Bytes>) {
    || (|vs| == 1 && d == Single(vs[0]))
    || (|vs| > 1 && d == Multiple(vs))
  }

  /** A further value for a name already in the dictionary: the name now has several. */
  function AppendValue(d: DictValue, v: Bytes): (r: DictValue)
    ensures forall vs :: Describes(d, vs) ==> Describes(r, vs + [v])
  {
    match d
    case Single(w) => Multiple([w, v])
    case Multiple(vs) => Multiple(vs + [v])
  }

  /** `d` maps exactly the names that have values in `es`, each to the form of its values. */
  ghost predicate DescribesAll(d: map<Bytes, DictValue>, es: seq<Entry>) {
    && (forall n :: n in d <==> ValuesIn(es, n) != [])
    && (forall n :: n in d ==> Describes(d[n], ValuesIn(es, n)))
  }

  /** One entry into the dictionary: a new name maps to its bare value, a known one gets the value appended. */
  function Insert(d: map<Bytes, DictValue>, e: Entry): map<Bytes, DictValue> {
    if e.name in d then d[e.name := AppendValue(d[e.name], e.value)]
    else d[e.name := Single(e.value)]
  }

  lemma InsertDescribes(d: map<Bytes, DictValue>, es: seq<Entry>, e: Entry)
    requires DescribesAll(d, es)
    ensures DescribesAll(Insert(d, e), es + [e])
  {
    ValuesInSnoc(es, e);
    var r := Insert(d, e);
    forall n ensures n in r <==> ValuesIn(es + [e], n) != [] {
      if n != e.name {
        assert ValuesIn(es + [e], n) == ValuesIn(es, n);
      }
    }
    forall n | n in r ensures Describes(r[n], ValuesIn(es + [e], n)) {
      if n == e.name {
        if e.name in d {
          assert Describes(d[n], ValuesIn(es, n));
        } else {
          assert ValuesIn(es, n) == [];
          assert ValuesIn(es + [e], n) == [e.value];
        }
      } else {
        assert r[n] == d[n];
        assert ValuesIn(es + [e], n) == ValuesIn(es, n);
      }
    }
  }

  /** The dictionary built entry by entry, in entry order. */
  function Collect(es: seq<Entry>): (d: map<Bytes, DictValue>)
    ensures DescribesAll(d, es)
    decreases |es|
  {
    if es == [] then map[]
    else
      var init := es[..|es| - 1];
      var last := es[|es| - 1];
      assert init + [last] == es;
      InsertDescribes(Collect(init), init, last);
      Insert(Collect(init), last)
  }

  /**
   `dictionaryValue`: a name with one value maps to that value, a name with
   several to all of them in order; the keys are exactly the parameter names.
   */
  function DictionaryValue(q: QueryComponent): (d: map<Bytes, DictValue>)
    ensures forall n :: n in d <==> n in Parameters(q)
    ensures forall n :: n in d ==> Describes(d[n], ValuesForParameter(q, n))
  {
    Collect(q.entries)
  }

  // ----- adding --------------------------------------------------------------

  /** `addParameter:value:`: one more entry at the end; it always succeeds. */
  function AddParameter(q: QueryComponent, name: Bytes, value: Bytes): (r: QueryComponent)
    ensures |r.entries| == |q.entries| + 1
    ensures r.entries[..|q.entries|] == q.entries
    ensures r.entries[|q.entries|] == Entry(name, value)
  {
    QueryComponent(q.entries + [Entry(name, value)])
  }

  /**
   What adding one parameter does: nothing is removed or merged, only `name`
   gains a value (at the end of its list), and a new name becomes the last
   parameter while a known name keeps its place.
   */
  lemma AddParameterLaws(q: QueryComponent, name: Bytes, value: Bytes)
    ensures |AddParameter(q, name, value).entries| == |q.entries| + 1
    ensures AddParameter(q, name, value).entries[..|q.entries|] == q.entries
    ensures ValuesForParameter(AddParameter(q, name, value), name) == ValuesForParameter(q, name) + [value]
    ensures forall n :: n != name ==> ValuesForParameter(AddParameter(q, name, value), n) == ValuesForParameter(q, n)
    ensures Parameters(AddParameter(q, name, value))
         == if name in Parameters(q) then Parameters(q) else Parameters(q) + [name]
  {
    ValuesInSnoc(q.entries, Entry(name, value));
    var r := AddParameter(q, name, value);
    assert r.entries[..|r.entries| - 1] == q.entries;
  }

  /** The pairs of a bulk add as entries, in the caller's order. */
  function AsEntries(ps: seq<(Bytes, Bytes)>): (es: seq<Entry>)
    ensures |es| == |ps|
  {
    seq(|ps|, k requires 0 <= k < |ps| => Entry(ps[k].0, ps[k].1))
  }

  /**
   `addParameters:`: `addParameter:value:` for each pair in turn, so the
   entries grow by exactly the pairs, in order.
   */
  function AddParameters(q: QueryComponent, ps: seq<(Bytes, Bytes)>): (r: QueryComponent)
    ensures r.entries == q.entries + AsEntries(ps)
    decreases |ps|
  {
    if ps == [] then q
    else
      var r := AddParameters(AddParameter(q, ps[0].0, ps[0].1), ps[1..]);
      assert AsEntries(ps) == [Entry(ps[0].0, ps[0].1)] + AsEntries(ps[1..]);
      r
  }

  /** After a bulk add each name has its old values followed by the values added for it. */
  lemma AddParametersValues(q: QueryComponent, ps: seq<(Bytes, Bytes)>, name: Bytes)
    ensures ValuesForParameter(AddParameters(q, ps), name)
         == ValuesForParameter(q, name) + ValuesIn(AsEntries(ps), name)
  {
    ValuesInConcat(q.entries, AsEntries(ps), name);
  }

  // ----- serialising ---------------------------------------------------------

  /** The characters a serialised query consists of. */
  predicate IsFormChar(c: char) {
    IsEncodedChar(c) || c == '=' || c == '&'
  }

  /** One entry as `name=value`, both percent-encoded. */
  function Token(e: Entry): string {
    Encode(e.name) + "=" + Encode(e.value)
  }

  function TokensOf(es: seq<Entry>): (ts: seq<string>)
    ensures |ts| == |es|
    ensures forall i :: 0 <= i < |ts| ==> ts[i] == Token(es[i])
    decreases |es|
  {
    if es == [] then [] else [Token(es[0])] + TokensOf(es[1..])
  }

  /**
   `URLEncodedParameters`: the entries as `name=value` tokens joined by `&`,
   in entry order; empty exactly when there are no entries.
   */
  function UrlEncodedParameters(q: QueryComponent): (s: string)
    ensures s == [] <==> q.entries == []
    ensures forall c :: c in s ==> IsFormChar(c)
  {
    if q.entries == [] then ""
    else
      var ts := TokensOf(q.entries);
      forall i, c | 0 <= i < |ts| && c in ts[i] ensures IsFormChar(c) {
        var e := q.entries[i];
        assert ts[i] == Encode(e.name) + ['='] + Encode(e.value);
      }
      JoinKeeps(ts, '&', IsFormChar);
      assert |Join(ts, '&')| >= |ts[0]| by { JoinFirst(ts, '&'); }
      Join(ts, '&')
  }

  // ----- parsing -------------------------------------------------------------

  /** Drops empty tokens (from `&&` and leading or trailing `&`), keeping the others in order. */
  function NonEmpty(ts: seq<string>): (r: seq<string>)
    ensures forall t :: t in r <==> t in ts && t != []
    ensures (forall i :: 0 <= i < |ts| ==> ts[i] != []) ==> r == ts
    decreases |ts|
  {
    if ts == [] then []
    else (if ts[0] == [] then [] else [ts[0]]) + NonEmpty(ts[1..])
  }

  /** One token: the name before the first `=`, the value after it (empty without `=`). */
  function DecodeToken(t: string): (r: Option<Entry>)
    ensures '=' !in t ==> (r.Some? <==> Decode(t).Some?)
    ensures '=' !in t && r.Some? ==> r.value == Entry(Decode(t).value, [])
  {
    var (n, v) := SplitAtFirst(t, '=');
    match (Decode(n), Decode(v))
    case (Some(name), Some(value)) => Some(Entry(name, value))
    case _ => None
  }

  /** All tokens in order; one that does not decode fails them all. */
  function DecodeTokens(ts: seq<string>): (r: Option<seq<Entry>>)
    ensures r.Some? ==> |r.value| == |ts|
    decreases |ts|
  {
    if ts == [] then Some([])
    else
      match (DecodeToken(ts[0]), DecodeTokens(ts[1..]))
      case (Some(e), Some(es)) => Some([e] + es)
      case _ => None
  }

  /** A query text read into a component, or None when some name or value is malformed. */
  function ParseQuery(s: string): (r: Option<QueryComponent>)
    ensures r.Some? <==> WellEncoded(s)
  {
    var ts := Split(s, '&');
    JoinSplit(s, '&');
    WellEncodedJoin(ts, '&');
    DecodeTokensSucceedsIff(NonEmpty(ts));
    assert WellEncoded("");
    match DecodeTokens(NonEmpty(ts))
    case None => None
    case Some(es) => Some(QueryComponent(es))
  }

  /** `initWithURL:`: None when the URL has no query at all; otherwise the query parsed. */
  function InitWithUrl(u: Url): (r: Option<QueryComponent>)
    ensures u.query.None? ==> r.None?
    ensures u.query.Some? ==> (r.Some? <==> WellEncoded(u.query.value))
  {
    match u.query
    case None => None
    case Some(s) => ParseQuery(s)
  }

  /**
   `URLByReplacingQueryInURL:`: the same prefix and fragment, the query replaced
   by the serialised entries, and no query at all when there are no entries.
   */
  function UrlByReplacingQuery(q: QueryComponent, u: Url): (r: Url)
    ensures r.prefix == u.prefix && r.fragment == u.fragment
    ensures r.query.None? <==> q.entries == []
    ensures r.query.Some? ==> r.query.value == UrlEncodedParameters(q)
    ensures Valid(u) ==> Valid(r)
  {
    var s := UrlEncodedParameters(q);
    assert '#' !in s;
    u.(query := if q.entries == [] then None else Some(s))
  }

  // ----- laws ----------------------------------------------------------------

  /** Tokens joined by a plain separator are well encoded exactly when each token is. */
  lemma {:induction false} WellEncodedJoin(ts: seq<string>, sep: char)
    requires |ts| >= 1
    requires sep as int < 128 && sep != '%' && !IsHexDigit(sep)
    ensures WellEncoded(Join(ts, sep)) <==> forall t :: t in ts ==> WellEncoded(t)
    decreases |ts|
  {
    if |ts| > 1 {
      WellEncodedJoin(ts[1..], sep);
      WellEncodedAround(ts[0], sep, Join(ts[1..], sep));
      assert ts == [ts[0]] + ts[1..];
    }
  }

  /** One token decodes exactly when it is well encoded. */
  lemma DecodeTokenSucceedsIff(t: string)
    ensures DecodeToken(t).Some? <==> WellEncoded(t)
  {
    var p := SplitAtFirst(t, '=');
    DecodeSucceedsIff(p.0);
    DecodeSucceedsIff(p.1);
    if '=' in t {
      WellEncodedAround(p.0, '=', p.1);
    }
  }

  lemma {:induction false} DecodeTokensSucceedsIff(ts: seq<string>)
    ensures DecodeTokens(ts).Some? <==> forall t :: t in ts ==> WellEncoded(t)
    decreases |ts|
  {
    if ts != [] {
      DecodeTokenSucceedsIff(ts[0]);
      DecodeTokensSucceedsIff(ts[1..]);
      assert ts == [ts[0]] + ts[1..];
    }
  }

  /** Dropping empty tokens from two lists in turn drops them from their concatenation. */
  lemma {:induction false} NonEmptyConcat(a: seq<string>, b: seq<string>)
    ensures NonEmpty(a + b) == NonEmpty(a) + NonEmpty(b)
    decreases |a|
  {
    if a == [] {
      assert a + b == b;
    } else {
      assert (a + b)[0] == a[0];
      assert (a + b)[1..] == a[1..] + b;
      NonEmptyConcat(a[1..], b);
    }
  }

  /** Parsing sees only the non-empty tokens between the `&` separators. */
  lemma SameTokensSameParse(s1: string, s2: string)
    requires NonEmpty(Split(s1, '&')) == NonEmpty(Split(s2, '&'))
    ensures ParseQuery(s1) == ParseQuery(s2)
  {
  }

  /** ParseQuery in terms of its non-empty tokens. */
  lemma ParseQueryUnfold(s: string)
    ensures ParseQuery(s) == if DecodeTokens(NonEmpty(Split(s, '&'))).Some?
                             then Some(QueryComponent(DecodeTokens(NonEmpty(Split(s, '&'))).value))
                             else None
  {
  }

  /** Decoding a list of tokens decodes each part in turn and joins the entries. */
  lemma {:induction false} DecodeTokensConcat(a: seq<string>, b: seq<string>)
    ensures DecodeTokens(a + b) == if DecodeTokens(a).Some? && DecodeTokens(b).Some?
                                   then Some(DecodeTokens(a).value + DecodeTokens(b).value)
                                   else None
    decreases |a|
  {
    if a == [] {
      assert a + b == b;
      assert DecodeTokens(a) == Some([]);
      if DecodeTokens(b).Some? {
        assert [] + DecodeTokens(b).value == DecodeTokens(b).value;
      }
    } else {
      assert (a + b)[0] == a[0];
      assert (a + b)[1..] == a[1..] + b;
      DecodeTokensConcat(a[1..], b);
      if DecodeToken(a[0]).Some? && DecodeTokens(a[1..]).Some? && DecodeTokens(b).Some? {
        var e, x, y := DecodeToken(a[0]).value, DecodeTokens(a[1..]).value, DecodeTokens(b).value;
        assert [e] + (x + y) == ([e] + x) + y;
      }
    }
  }

  /**
   A query is read piece by piece: `x&y` gives the entries of `x` followed by
   those of `y`, and fails exactly when either part fails.
   */
  lemma ParseQueryConcat(x: string, y: string)
    ensures ParseQuery(x + "&" + y) == if ParseQuery(x).Some? && ParseQuery(y).Some?
                                       then Some(QueryComponent(ParseQuery(x).value.entries + ParseQuery(y).value.entries))
                                       else None
  {
    assert x + "&" + y == x + ['&'] + y;
    SplitConcat(x, '&', y);
    NonEmptyConcat(Split(x, '&'), Split(y, '&'));
    DecodeTokensConcat(NonEmpty(Split(x, '&')), NonEmpty(Split(y, '&')));
    ParseQueryUnfold(x);
    ParseQueryUnfold(y);
    ParseQueryUnfold(x + "&" + y);
  }

  /**
   A query of one non-empty token gives that token's one entry (a bare name
   with the empty value included), or fails when the token does not decode.
   */
  lemma ParseQueryOneToken(t: string)
    requires t != [] && '&' !in t
    ensures ParseQuery(t) == if DecodeToken(t).Some? then Some(QueryComponent([DecodeToken(t).value])) else None
  {
    SplitNoSeparator(t, '&');
    assert NonEmpty([t]) == [t];
    assert [t][1..] == [];
    assert DecodeTokens([t][1..]) == Some([]);
    ParseQueryUnfold(t);
    if DecodeToken(t).Some? {
      assert [DecodeToken(t).value] + [] == [DecodeToken(t).value];
    }
  }

  /** `x&&y` splits into the pieces of `x`, one empty piece, and the pieces of `y`. */
  lemma SplitDoubleSeparator(x: string, y: string)
    ensures Split(x + "&&" + y, '&') == Split(x, '&') + ([""] + Split(y, '&'))
  {
    assert x + "&&" + y == x + ['&'] + ([] + ['&'] + y);
    SplitConcat(x, '&', [] + ['&'] + y);
    SplitConcat([], '&', y);
    assert Split([], '&') == [""];
  }

  /** An empty token between two `&` is skipped: `x&&y` reads as `x&y`. */
  lemma ParseSkipsDoubleSeparator(x: string, y: string)
    ensures ParseQuery(x + "&&" + y) == ParseQuery(x + "&" + y)
  {
    var xs := Split(x, '&');
    var ys := Split(y, '&');
    assert NonEmpty(Split(x + "&&" + y, '&')) == NonEmpty(xs) + NonEmpty(ys) by {
      SplitDoubleSeparator(x, y);
      NonEmptyConcat(xs, [""] + ys);
      NonEmptyConcat([""], ys);
    }
    assert NonEmpty(Split(x + "&" + y, '&')) == NonEmpty(xs) + NonEmpty(ys) by {
      assert x + "&" + y == x + ['&'] + y;
      SplitConcat(x, '&', y);
      NonEmptyConcat(xs, ys);
    }
    SameTokensSameParse(x + "&&" + y, x + "&" + y);
  }

  /** A leading `&` is skipped: `&y` reads as `y`. */
  lemma ParseSkipsLeadingSeparator(y: string)
    ensures ParseQuery("&" + y) == ParseQuery(y)
  {
    assert NonEmpty(Split("&" + y, '&')) == NonEmpty(Split(y, '&')) by {
      assert "&" + y == [] + ['&'] + y;
      SplitConcat([], '&', y);
      assert Split([], '&') == [""];
      NonEmptyConcat([""], Split(y, '&'));
    }
    SameTokensSameParse("&" + y, y);
  }

  /** A trailing `&` is skipped: `x&` reads as `x`. */
  lemma ParseSkipsTrailingSeparator(x: string)
    ensures ParseQuery(x + "&") == ParseQuery(x)
  {
    assert NonEmpty(Split(x + "&", '&')) == NonEmpty(Split(x, '&')) by {
      assert x + "&" == x + ['&'] + [];
      SplitConcat(x, '&', []);
      assert Split([], '&') == [""];
      NonEmptyConcat(Split(x, '&'), [""]);
      assert NonEmpty(Split(x, '&')) + [] == NonEmpty(Split(x, '&'));
    }
    SameTokensSameParse(x + "&", x);
  }

  /** The tokens `name=value` for pairs of raw (still encoded) texts. */
  function PairTokens(ps: seq<(string, string)>): (ts: seq<string>)
    ensures |ts| == |ps|
    ensures forall i :: 0 <= i < |ps| ==> ts[i] == ps[i].0 + "=" + ps[i].1
  {
    seq(|ps|, i requires 0 <= i < |ps| => ps[i].0 + "=" + ps[i].1)
  }

  /** Every raw name and value of `ps` decodes. */
  predicate PairsDecode(ps: seq<(string, string)>) {
    forall i :: 0 <= i < |ps| ==> Decode(ps[i].0).Some? && Decode(ps[i].1).Some?
  }

  lemma PairsDecodeCons(ps: seq<(string, string)>)
    requires ps != []
    ensures PairsDecode(ps) <==> Decode(ps[0].0).Some? && Decode(ps[0].1).Some? && PairsDecode(ps[1..])
  {
    if PairsDecode(ps[1..]) && Decode(ps[0].0).Some? && Decode(ps[0].1).Some? {
      forall i | 0 <= i < |ps| ensures Decode(ps[i].0).Some? && Decode(ps[i].1).Some? {
        if i > 0 {
          assert ps[i] == ps[1..][i - 1];
        }
      }
    }
    if PairsDecode(ps) {
      forall i | 0 <= i < |ps| - 1 ensures Decode(ps[1..][i].0).Some? && Decode(ps[1..][i].1).Some? {
        assert ps[1..][i] == ps[i + 1];
      }
    }
  }

  /**
   Tokens `n=v` with no `=` in `n` decode to the entries of the decoded names
   and values, in order, and fail exactly when some name or value fails.
   */
  lemma {:induction false} DecodeTokensOfPairs(ps: seq<(string, string)>)
    requires forall i :: 0 <= i < |ps| ==> '=' !in ps[i].0
    ensures DecodeTokens(PairTokens(ps)).Some? <==> PairsDecode(ps)
    ensures DecodeTokens(PairTokens(ps)).Some? ==>
      forall i :: 0 <= i < |ps| ==>
        DecodeTokens(PairTokens(ps)).value[i] == Entry(Decode(ps[i].0).value, Decode(ps[i].1).value)
    decreases |ps|
  {
    if ps != [] {
      var ts := PairTokens(ps);
      assert ts[1..] == PairTokens(ps[1..]);
      DecodeTokensOfPairs(ps[1..]);
      SplitAtFirstUnique(ps[0].0, '=', ps[0].1);
      PairsDecodeCons(ps);
      if DecodeTokens(ts).Some? {
        var es := DecodeTokens(ts).value;
        forall i | 0 <= i < |ps| ensures es[i] == Entry(Decode(ps[i].0).value, Decode(ps[i].1).value) {
          if i > 0 {
            assert es[i] == DecodeTokens(ts[1..]).value[i - 1];
            assert ps[i] == ps[1..][i - 1];
          }
        }
      }
    }
  }

  /**
   A query written as `n1=v1&...&nk=vk`, with no `=` in any name and no `&`
   anywhere, reads as the entries (decoded n1, decoded v1), ..., in order,
   and fails exactly when some name or value does not decode.
   */
  lemma ParseQueryOfPairs(ps: seq<(string, string)>)
    requires |ps| >= 1
    requires forall i :: 0 <= i < |ps| ==> '=' !in ps[i].0 && '&' !in ps[i].0 && '&' !in ps[i].1
    ensures ParseQuery(Join(PairTokens(ps), '&')).Some? <==> PairsDecode(ps)
    ensures ParseQuery(Join(PairTokens(ps), '&')).Some? ==>
      var es := ParseQuery(Join(PairTokens(ps), '&')).value.entries;
      && |es| == |ps|
      && forall i :: 0 <= i < |ps| ==> es[i] == Entry(Decode(ps[i].0).value, Decode(ps[i].1).value)
  {
    var ts := PairTokens(ps);
    forall i | 0 <= i < |ts| ensures '&' !in ts[i] && ts[i] != [] {
      assert ts[i] == ps[i].0 + ['='] + ps[i].1;
    }
    SplitJoin(ts, '&');
    DecodeTokensOfPairs(ps);
  }

  lemma DecodeTokenOf(e: Entry)
    ensures DecodeToken(Token(e)) == Some(e)
  {
    var n := Encode(e.name);
    assert '=' !in n;
    assert Token(e) == n + ['='] + Encode(e.value);
    SplitAtFirstUnique(n, '=', Encode(e.value));
    DecodeEncode(e.name);
    DecodeEncode(e.value);
  }

  lemma {:induction false} DecodeTokensOf(es: seq<Entry>)
    ensures DecodeTokens(TokensOf(es)) == Some(es)
    decreases |es|
  {
    if es != [] {
      DecodeTokenOf(es[0]);
      DecodeTokensOf(es[1..]);
      assert TokensOf(es)[1..] == TokensOf(es[1..]);
      assert [es[0]] + es[1..] == es;
    }
  }

  /**
   Round trip: parsing the serialised form gives back the same entries in the
   same order, whatever octets the names and values hold.
   */
  lemma ParseEncodeRoundTrip(q: QueryComponent)
    ensures ParseQuery(UrlEncodedParameters(q)) == Some(q)
  {
    if q.entries == [] {
      assert Split("", '&') == [""];
    } else {
      var ts := TokensOf(q.entries);
      forall i | 0 <= i < |ts|
        ensures '&' !in ts[i] && ts[i] != []
      {
        var e := q.entries[i];
        assert ts[i] == Encode(e.name) + ['='] + Encode(e.value);
      }
      SplitJoin(ts, '&');
      DecodeTokensOf(q.entries);
    }
  }

  /**
   Round trip through a URL: a non-empty component put into any URL is read
   back from it; an empty one leaves a URL without a query, which does not parse.
   */
  lemma SpliceRoundTrip(q: QueryComponent, u: Url)
    ensures q.entries != [] ==> InitWithUrl(UrlByReplacingQuery(q, u)) == Some(q)
    ensures q.entries == [] ==> InitWithUrl(UrlByReplacingQuery(q, u)) == None
  {
    ParseEncodeRoundTrip(q);
  }

  /**
   Round trip through the text of a URL: a non-empty component spliced into a
   valid URL, written out and read back, gives back the same entries.
   */
  lemma UrlTextRoundTrip(q: QueryComponent, u: Url)
    requires Valid(u) && q.entries != []
    ensures InitWithUrl(FromString(ToString(UrlByReplacingQuery(q, u)))) == Some(q)
  {
    FromStringToString(UrlByReplacingQuery(q, u));
    ParseEncodeRoundTrip(q);
  }
}

=== FILE: scenarios.dfy ===
/**
 Worked examples of the component as an authorization client uses it:
 reading a redirect URL, building a request URL. Most are stated for any
 plain text (letters, digits, `-`, `.`, `_`, `~`) in place of the literal
 code, state, host or path.
 */
module Scenarios {
  import opened Wrappers
  import opened PercentCoding
  import opened Tokens
  import opened Urls
  import opened Query

  /** The octets of an ASCII text: each character's code. */
  function Ascii(s: string): (bs: Bytes)
    requires AllAscii(s)
    ensures |bs| == |s|
    ensures forall i :: 0 <= i < |s| ==> bs[i] == s[i] as int
  {
    seq(|s|, i requires 0 <= i < |s| => s[i] as int)
  }

  /** Text made only of unreserved characters (all of them ASCII). */
  predicate Plain(s: string) {
    forall i :: 0 <= i < |s| ==> IsUnreservedChar(s[i])
  }

  /** Unreserved characters are ASCII. */
  lemma PlainAscii(s: string)
    requires Plain(s)
    ensures AllAscii(s)
  {
    forall i | 0 <= i < |s| ensures s[i] as int < 128 {
      assert IsUnreservedChar(s[i]);
    }
  }

  lemma AsciiConcat(a: string, b: string)
    requires AllAscii(a) && AllAscii(b)
    ensures AllAscii(a + b)
    ensures Ascii(a + b) == Ascii(a) + Ascii(b)
  {
  }

  /** Text made of unreserved characters is its own encoding. */
  lemma EncodePlain(s: string)
    requires Plain(s)
    ensures Encode(Ascii(s)) == s
  {
    EncodeUnreserved(Ascii(s));
  }

  /** The encoding of joined texts is the join of their encodings. */
  lemma EncodeTextConcat(a: string, b: string, ea: string, eb: string)
    requires AllAscii(a) && AllAscii(b)
    requires Encode(Ascii(a)) == ea && Encode(Ascii(b)) == eb
    ensures Encode(Ascii(a + b)) == ea + eb
  {
    AsciiConcat(a, b);
    EncodeConcat(Ascii(a), Ascii(b));
  }

  /** One parameter serialises to its single token. */
  lemma OneToken(name: Bytes, value: Bytes)
    ensures UrlEncodedParameters(AddParameter(Empty, name, value)) == Encode(name) + "=" + Encode(value)
  {
    var q := AddParameter(Empty, name, value);
    assert q.entries == [Entry(name, value)];
  }

  /** The query `n1=v1&n2=v2` for two plain pairs. */
  lemma EncodeTwoPlain(n1: string, v1: string, n2: string, v2: string)
    requires Plain(n1) && Plain(v1) && Plain(n2) && Plain(v2)
    ensures UrlEncodedParameters(AddParameter(AddParameter(Empty, Ascii(n1), Ascii(v1)), Ascii(n2), Ascii(v2)))
         == (n1 + "=" + v1) + "&" + (n2 + "=" + v2)
  {
    EncodePlain(n1);
    EncodePlain(v1);
    EncodePlain(n2);
    EncodePlain(v2);
    var q := AddParameter(AddParameter(Empty, Ascii(n1), Ascii(v1)), Ascii(n2), Ascii(v2));
    assert q.entries == [Entry(Ascii(n1), Ascii(v1)), Entry(Ascii(n2), Ascii(v2))];
    var ts := TokensOf(q.entries);
    assert ts == [n1 + "=" + v1, n2 + "=" + v2];
    assert ts[1..] == [ts[1]];
    assert Join(ts[1..], '&') == ts[1];
    assert Join(ts, '&') == ts[0] + ['&'] + Join(ts[1..], '&');
    assert UrlEncodedParameters(q) == Join(ts, '&');
  }

  /** A URL whose query holds two plain pairs reads back as those two additions. */
  lemma ReadTwoPlain(prefix: string, n1: string, v1: string, n2: string, v2: string)
    requires '?' !in prefix && '#' !in prefix
    requires Plain(n1) && Plain(v1) && Plain(n2) && Plain(v2)
    ensures InitWithUrl(FromString(prefix + "?" + ((n1 + "=" + v1) + "&" + (n2 + "=" + v2))))
         == Some(AddParameter(AddParameter(Empty, Ascii(n1), Ascii(v1)), Ascii(n2), Ascii(v2)))
  {
    var q := AddParameter(AddParameter(Empty, Ascii(n1), Ascii(v1)), Ascii(n2), Ascii(v2));
    var u := Url(prefix, None, None);
    assert ToString(UrlByReplacingQuery(q, u)) == prefix + "?" + ((n1 + "=" + v1) + "&" + (n2 + "=" + v2)) by {
      EncodeTwoPlain(n1, v1, n2, v2);
    }
    UrlTextRoundTrip(q, u);
  }

  /** Two additions under different names give two parameters, one value each. */
  lemma TwoNames(n1: Bytes, v1: Bytes, n2: Bytes, v2: Bytes)
    requires n1 != n2
    ensures
      var q := AddParameter(AddParameter(Empty, n1, v1), n2, v2);
      && Parameters(q) == [n1, n2]
      && ValuesForParameter(q, n1) == [v1]
      && ValuesForParameter(q, n2) == [v2]
  {
    AddParameterLaws(Empty, n1, v1);
    AddParameterLaws(AddParameter(Empty, n1, v1), n2, v2);
    assert Parameters(Empty) == [];
    assert ValuesForParameter(Empty, n1) == [];
    assert ValuesForParameter(Empty, n2) == [];
  }

  /** Two additions under one name give that name both values, as a list. */
  lemma RepeatedName(n: Bytes, v1: Bytes, v2: Bytes)
    ensures
      var q := AddParameter(AddParameter(Empty, n, v1), n, v2);
      && ValuesForParameter(q, n) == [v1, v2]
      && DictionaryValue(q)[n] == Multiple([v1, v2])
  {
    var q1 := AddParameter(Empty, n, v1);
    AddParameterLaws(Empty, n, v1);
    AddParameterLaws(q1, n, v2);
    assert ValuesForParameter(Empty, n) == [];
    var q := AddParameter(q1, n, v2);
    assert n in Parameters(q);
  }

  /**
   A redirect URL such as `...?code=C&state=S`, two plain pairs under
   different names, reads back both parameters, in order, one value each.
   */
  lemma ReadTwoNames(prefix: string, n1: string, v1: string, n2: string, v2: string)
    requires '?' !in prefix && '#' !in prefix
    requires Plain(n1) && Plain(v1) && Plain(n2) && Plain(v2) && n1 != n2
    ensures
      var r := InitWithUrl(FromString(prefix + "?" + ((n1 + "=" + v1) + "&" + (n2 + "=" + v2))));
      && r.Some?
      && Parameters(r.value) == [Ascii(n1), Ascii(n2)]
      && ValuesForParameter(r.value, Ascii(n1)) == [Ascii(v1)]
      && ValuesForParameter(r.value, Ascii(n2)) == [Ascii(v2)]
  {
    PlainAscii(n1);
    PlainAscii(v1);
    PlainAscii(n2);
    PlainAscii(v2);
    ReadTwoPlain(prefix, n1, v1, n2, v2);
    assert Ascii(n1) != Ascii(n2) by {
      if |n1| == |n2| {
        var i :| 0 <= i < |n1| && n1[i] != n2[i];
        assert Ascii(n1)[i] != Ascii(n2)[i];
      }
    }
    TwoNames(Ascii(n1), Ascii(v1), Ascii(n2), Ascii(v2));
  }

  /** A redirect URL `...?n=X&n=Y` keeps both values of `n`, in order, and reads back a list. */
  lemma ReadRepeatedName(prefix: string, n: string, x: string, y: string)
    requires '?' !in prefix && '#' !in prefix
    requires Plain(n) && Plain(x) && Plain(y)
    ensures
      var r := InitWithUrl(FromString(prefix + "?" + ((n + "=" + x) + "&" + (n + "=" + y))));
      && r.Some?
      && ValuesForParameter(r.value, Ascii(n)) == [Ascii(x), Ascii(y)]
      && DictionaryValue(r.value)[Ascii(n)] == Multiple([Ascii(x), Ascii(y)])
  {
    PlainAscii(n);
    PlainAscii(x);
    PlainAscii(y);
    ReadTwoPlain(prefix, n, x, n, y);
    RepeatedName(Ascii(n), Ascii(x), Ascii(y));
  }

  /** A URL without `?` has no query component, so nothing is parsed. */
  lemma ParseWithoutQuery()
    ensures InitWithUrl(FromString("https://x.example/cb")) == None
  {
    FromStringWithoutQuery("https://x.example/cb");
  }

  lemma EncodeColonSlashes()
    ensures Encode(Ascii("://")) == "%3A%2F%2F"
  {
  }

  lemma EncodeSlash()
    ensures Encode(Ascii("/")) == "%2F"
  {
  }

  lemma EncodeBlank()
    ensures Encode(Ascii(" ")) == "%20"
  {
  }

  /** `:` and `/` are reserved, so an https URL as a value has them escaped. */
  lemma EncodeHttpsUrl(host: string, path: string)
    requires Plain(host) && Plain(path)
    ensures AllAscii("https" + "://" + host + "/" + path)
    ensures Encode(Ascii("https" + "://" + host + "/" + path)) == "https" + "%3A%2F%2F" + host + "%2F" + path
  {
    PlainAscii(host);
    PlainAscii(path);
    assert AllAscii("https") && AllAscii("://") && AllAscii("/");
    AsciiConcat("https", "://");
    AsciiConcat("https" + "://", host);
    AsciiConcat("https" + "://" + host, "/");
    AsciiConcat("https" + "://" + host + "/", path);
    EncodePlain("https");
    EncodeColonSlashes();
    EncodeSlash();
    EncodePlain(host);
    EncodePlain(path);
    EncodeTextConcat("https", "://", "https", "%3A%2F%2F");
    EncodeTextConcat("https" + "://", host, "https" + "%3A%2F%2F", host);
    EncodeTextConcat("https" + "://" + host, "/", "https" + "%3A%2F%2F" + host, "%2F");
    EncodeTextConcat("https" + "://" + host + "/", path, "https" + "%3A%2F%2F" + host + "%2F", path);
  }

  /** A redirect URI added as a parameter is serialised percent-encoded. */
  lemma EncodeRedirectUri(name: string, host: string, path: string)
    requires Plain(name) && Plain(host) && Plain(path)
    ensures UrlEncodedParameters(AddParameter(Empty, Ascii(name), Ascii("https" + "://" + host + "/" + path)))
         == name + "=" + ("https" + "%3A%2F%2F" + host + "%2F" + path)
  {
    PlainAscii(name);
    EncodeHttpsUrl(host, path);
    EncodePlain(name);
    OneToken(Ascii(name), Ascii("https" + "://" + host + "/" + path));
  }

  /** A space inside a value is written `%20`. */
  lemma EncodeSpace(name: string, a: string, b: string)
    requires Plain(name) && Plain(a) && Plain(b)
    ensures UrlEncodedParameters(AddParameter(Empty, Ascii(name), Ascii(a + " " + b)))
         == name + "=" + (a + "%20" + b)
  {
    PlainAscii(name);
    PlainAscii(a);
    PlainAscii(b);
    assert AllAscii(" ");
    AsciiConcat(a, " ");
    AsciiConcat(a + " ", b);
    EncodePlain(name);
    EncodePlain(a);
    EncodePlain(b);
    EncodeBlank();
    EncodeTextConcat(a, " ", a, "%20");
    EncodeTextConcat(a + " ", b, a + "%20", b);
    OneToken(Ascii(name), Ascii(a + " " + b));
  }

  /** Names that differ only in case are different parameters. */
  lemma CaseSensitiveNames()
    ensures
      var q := AddParameter(AddParameter(Empty, Ascii("Foo"), Ascii("1")), Ascii("foo"), Ascii("2"));
      && ValuesForParameter(q, Ascii("Foo")) == [Ascii("1")]
      && ValuesForParameter(q, Ascii("foo")) == [Ascii("2")]
  {
    assert Ascii("Foo")[0] != Ascii("foo")[0];
    TwoNames(Ascii("Foo"), Ascii("1"), Ascii("foo"), Ascii("2"));
  }

  /** Splicing an empty component removes the old query instead of keeping it. */
  lemma SpliceEmpty()
    ensures ToString(UrlByReplacingQuery(Empty, FromString("https://x.example/cb?old=1"))) == "https://x.example/cb"
  {
    assert "https://x.example/cb?old=1" == "https://x.example/cb" + "?" + "old=1";
    FromStringWithQuery("https://x.example/cb", "old=1");
  }
}

=== FILE: tokens.dfy ===
/**
 Splitting text at a separator character and joining it back: the query is
 cut at `&` into pair tokens, each token at its first `=`, and a URL at its
 first `#` and `?` (section 3.4 of RFC 3986).
 */
module Tokens {

  /** The pieces of `s` between occurrences of `sep`; always at least one piece. */
  function Split(s: string, sep: char): (ts: seq<string>)
    ensures |ts| >= 1
    ensures forall i :: 0 <= i < |ts| ==> sep !in ts[i]
    decreases |s|
  {
    if s == [] then [""]
    else
      var rest := Split(s[1..], sep);
      if s[0] == sep then [""] + rest
      else [[s[0]] + rest[0]] + rest[1..]
  }

  /** The pieces `ts` with `sep` between consecutive ones. */
  function Join(ts: seq<string>, sep: char): string
    requires |ts| >= 1
    decreases |ts|
  {
    if |ts| == 1 then ts[0] else ts[0] + [sep] + Join(ts[1..], sep)
  }

  /** Joining the pieces of a split gives back the text. */
  lemma {:induction false} JoinSplit(s: string, sep: char)
    ensures Join(Split(s, sep), sep) == s
    decreases |s|
  {
    if s != [] {
      var rest := Split(s[1..], sep);
      JoinSplit(s[1..], sep);
      var ts := Split(s, sep);
      if s[0] == sep {
        assert ts[1..] == rest;
      } else if |rest| == 1 {
        assert ts == [[s[0]] + rest[0]];
      } else {
        assert ts[1..] == rest[1..];
        assert Join(rest, sep) == rest[0] + [sep] + Join(rest[1..], sep);
      }
    }
  }

  /** A text without the separator is a single piece. */
  lemma {:induction false} SplitNoSeparator(t: string, sep: char)
    requires sep !in t
    ensures Split(t, sep) == [t]
    decreases |t|
  {
    if t != [] {
      SplitNoSeparator(t[1..], sep);
      assert [t[0]] + t[1..] == t;
    }
  }

  /** A separator after a separator-free prefix ends exactly that piece. */
  lemma {:induction false} SplitAfterPiece(t: string, sep: char, r: string)
    requires sep !in t
    ensures Split(t + [sep] + r, sep) == [t] + Split(r, sep)
    decreases |t|
  {
    var s := t + [sep] + r;
    if t == [] {
      assert s[1..] == r;
    } else {
      assert s[1..] == t[1..] + [sep] + r;
      SplitAfterPiece(t[1..], sep, r);
      assert [t[0]] + t[1..] == t;
    }
  }

  /** Splitting at a separator in the middle splits both sides independently. */
  lemma {:induction false} SplitConcat(a: string, sep: char, b: string)
    ensures Split(a + [sep] + b, sep) == Split(a, sep) + Split(b, sep)
    decreases |a|
  {
    var s := a + [sep] + b;
    if a == [] {
      assert s[1..] == b;
    } else {
      assert s[0] == a[0];
      assert s[1..] == a[1..] + [sep] + b;
      SplitConcat(a[1..], sep, b);
    }
  }

  /** Splitting a join of separator-free pieces gives back the pieces. */
  lemma {:induction false} SplitJoin(ts: seq<string>, sep: char)
    requires |ts| >= 1
    requires forall i :: 0 <= i < |ts| ==> sep !in ts[i]
    ensures Split(Join(ts, sep), sep) == ts
    decreases |ts|
  {
    if |ts| == 1 {
      SplitNoSeparator(ts[0], sep);
    } else {
      SplitJoin(ts[1..], sep);
      SplitAfterPiece(ts[0], sep, Join(ts[1..], sep));
      assert [ts[0]] + ts[1..] == ts;
    }
  }

  /**
   The text before the first `sep` and the text after it; a text without
   `sep` is all name and an empty remainder.
   */
  function SplitAtFirst(t: string, sep: char): (p: (string, string))
    ensures sep !in p.0
    ensures sep in t ==> t == p.0 + [sep] + p.1
    ensures sep !in t ==> p == (t, "")
    decreases |t|
  {
    if t == [] then ("", "")
    else if t[0] == sep then ("", t[1..])
    else
      var p := SplitAtFirst(t[1..], sep);
      assert t == [t[0]] + t[1..];
      ([t[0]] + p.0, p.1)
  }

  /** The first separator is the one after a separator-free prefix. */
  lemma {:induction false} SplitAtFirstUnique(a: string, sep: char, b: string)
    requires sep !in a
    ensures SplitAtFirst(a + [sep] + b, sep) == (a, b)
    decreases |a|
  {
    var t := a + [sep] + b;
    if a == [] {
      assert t[1..] == b;
    } else {
      assert t[1..] == a[1..] + [sep] + b;
      SplitAtFirstUnique(a[1..], sep, b);
      assert [a[0]] + a[1..] == a;
    }
  }

  /** The first piece opens the joined text. */
  lemma JoinFirst(ts: seq<string>, sep: char)
    requires |ts| >= 1
    ensures ts[0] <= Join(ts, sep)
  {
  }

  /** A property every piece's characters and the separator share holds of the whole join. */
  lemma {:induction false} JoinKeeps(ts: seq<string>, sep: char, ok: char -> bool)
    requires |ts| >= 1
    requires ok(sep)
    requires forall i, c :: 0 <= i < |ts| && c in ts[i] ==> ok(c)
    ensures forall c :: c in Join(ts, sep) ==> ok(c)
    decreases |ts|
  {
    if |ts| > 1 {
      JoinKeeps(ts[1..], sep, ok);
    }
  }
}

=== FILE: url.dfy ===
/**
 The URL as far as the query component sees it: everything before the query
 (scheme, authority and path), the optional query, and the optional fragment.
 The query starts after the first `?` and ends before the first `#`
 (section 3.4 of RFC 3986); the fragment follows the first `#`.
 */
module Urls {
  import opened Wrappers
  import opened Tokens

  datatype Url = Url(prefix: string, query: Option<string>, fragment: Option<string>)

  /** The shape every URL text splits into: no `?` or `#` before the query, no `#` inside it. */
  predicate Valid(u: Url) {
    && '?' !in u.prefix
    && '#' !in u.prefix
    && (u.query.Some? ==> '#' !in u.query.value)
  }

  /** The URL written out; an absent query or fragment leaves no `?` or `#` behind. */
  function ToString(u: Url): string {
    u.prefix
    + (match u.query case None => "" case Some(q) => "?" + q)
    + (match u.fragment case None => "" case Some(f) => "#" + f)
  }

  /** Locates the query and fragment of a URL text. */
  function FromString(s: string): (u: Url)
    ensures Valid(u)
    ensures ToString(u) == s
  {
    var (before, fragment) := SplitAtFirst(s, '#');
    var (prefix, query) := SplitAtFirst(before, '?');
    Url(prefix,
        if '?' in before then Some(query) else None,
        if '#' in s then Some(fragment) else None)
  }

  /** Every valid URL is read back from its text unchanged. */
  lemma FromStringToString(u: Url)
    requires Valid(u)
    ensures FromString(ToString(u)) == u
  {
    var head := u.prefix + (match u.query case None => "" case Some(q) => "?" + q);
    assert '#' !in head;
    match u.fragment {
      case None =>
        assert ToString(u) == head;
      case Some(f) =>
        assert ToString(u) == head + ['#'] + f;
        SplitAtFirstUnique(head, '#', f);
    }
    match u.query {
      case None =>
        assert head == u.prefix;
      case Some(q) =>
        assert head == u.prefix + ['?'] + q;
        SplitAtFirstUnique(u.prefix, '?', q);
    }
  }

  /** A URL text with a query and no fragment. */
  lemma FromStringWithQuery(prefix: string, query: string)
    requires '?' !in prefix && '#' !in prefix && '#' !in query
    ensures FromString(prefix + "?" + query) == Url(prefix, Some(query), None)
  {
    FromStringToString(Url(prefix, Some(query), None));
  }

  /** A URL text with neither query nor fragment. */
  lemma FromStringWithoutQuery(prefix: string)
    requires '?' !in prefix && '#' !in prefix
    ensures FromString(prefix) == Url(prefix, None, None)
  {
    FromStringToString(Url(prefix, None, None));
  }
}

=== FILE: wrappers.dfy ===
/** The optional result used wherever the query component can fail to produce a value. */
module Wrappers {

  /** Some/None in place of Objective-C's nullable return. */
  datatype Option<+T> = None | Some(value: T)
}
